=== FILE: README.md ===
# JIRA monitor agent and math API controllers — a Dafny model

This project models the decision logic of two parts of the `agent_sdlc`
repository.

**The JIRA monitor agent** (`agent/jira-monitor-agent.js`) polls JIRA for open
SonarQube tickets. It hands each ticket it has not seen yet to
`processTicket`, marks the ticket's key as processed, and posts exactly one
comment on the ticket. Processing builds a fixed two-entry fix plan
(`generateFix`) and publishes it through GitHub (`createPullRequest`):

- a branch named after the ticket key, reused when it already exists (HTTP 422);
- the plan's deletions and creations on that branch, where a missing file (404)
  is not an error on delete;
- a pull request whose body lists one change line per fix.

Every HTTP call is replaced by the answer it gets back. Per ticket, a
`Publisher.Host` record holds GitHub's answers, the fix branch's files as a
map, and a per-path map of the errors the contents API returns. A
`JiraMonitorAgent.World` gives each ticket key its own host and comment-post
answer. The agent's state (`JiraMonitorAgent.Agent`) holds:

- the processed-key set;
- the tickets handed to `processTicket`, in order;
- the comment posts made, in order.

The poll loop is written over any function from tickets to comments. Its
lemmas therefore hold whatever processing does, and `AgentRun` instantiates
them with the real `processTicket`.

**The math REST controllers** (`MathController.java`,
`VulnerableController.java`):

- the null-body guard, the exception → HTTP-status mapping shared by the four
  arithmetic endpoints, and `createErrorResponse`;
- the filename whitelist of `exportResults` and the path it builds;
- the pure classifier `complexMethod` and the string built by
  `evaluateExpression`.

The arithmetic service is an input: a function from the request to a value
or a thrown exception.

Modules: `Results` (outcome values), `Text` (JavaScript `toLowerCase`, `split`
and `join`, and Java `String.valueOf` for codes), `FixPlan`, `Publisher`,
`JiraMonitorAgent`, `MathController`, `VulnerableController`.

What the agent's code does, and so what the model does:

- The agent parses no ticket description, asks no generative model, uses no
  local workspace and makes no local commit. It writes files through the
  GitHub contents API from a fixed plan. Each delete or create there commits
  one file change to the fix branch, so no commit can be empty.
- The status transition to "In Progress" only logs, so it can never fail.
- The comment is posted before the key is added. Both outcomes (pull request
  opened, or any error) add the key, so a failed ticket is not retried during
  the run.

The model assumes that polls do not overlap. The interval timer at line 32
does not guarantee this (see `JiraMonitorAgent.Run` under "## Left out").

## Model

| member | source | states |
|---|---|---|
| `JiraMonitorAgent.ProcessTicket` | agent/jira-monitor-agent.js:70-92 | exactly one comment, on the ticket's key: "Automated fix created: " + the pull request URL when publishing succeeds, "Failed to create automated fix: " + the error message otherwise; whether the post is delivered affects nothing else |
| `JiraMonitorAgent.CommentTells` | agent/jira-monitor-agent.js:85-90 | the comment starts with the success text if and only if the pull request was created |
| `JiraMonitorAgent.Poll` | agent/jira-monitor-agent.js:38-65 | a failed search leaves the agent's state unchanged |
| `JiraMonitorAgent.StartValid` | agent/jira-monitor-agent.js:17 | a freshly constructed agent, with an empty processed set, satisfies the invariant |
| `JiraMonitorAgent.HandleValid` | agent/jira-monitor-agent.js:57-59 | handing over an unprocessed ticket and then marking its key keeps the invariant |
| `JiraMonitorAgent.PassExtends` | agent/jira-monitor-agent.js:56-61 | a pass only appends: the processed set grows, earlier calls and comments are kept, and every ticket handed over was returned by the search and not processed before |
| `JiraMonitorAgent.PassCovers` | agent/jira-monitor-agent.js:56-61 | after a pass the processed set is the old set plus every key the search returned |
| `JiraMonitorAgent.PassValid` | agent/jira-monitor-agent.js:56-61 | a pass keeps the invariant: distinct keys handed over, processed set = keys handed over, one comment per call, in order |
| `JiraMonitorAgent.PassProcessesExactly` | agent/jira-monitor-agent.js:56-61 | one pass hands over each returned, not-yet-processed key exactly once and nothing else, even when the search repeats a key or a ticket fails |
| `JiraMonitorAgent.RunValid` | agent/jira-monitor-agent.js:23-61 | over any sequence of polls, successful or failed, the invariant is kept |
| `JiraMonitorAgent.RunSkipsProcessed` | agent/jira-monitor-agent.js:56-59 | a key processed by earlier polls is never handed to `processTicket` by a later poll of the same run |
| `JiraMonitorAgent.AgentRun` | agent/jira-monitor-agent.js:56-91 | over a whole run from start, keys handed over are distinct, and the i-th comment is `processTicket`'s comment for the i-th ticket, on that ticket |
| `FixPlan.GenerateFix` | agent/jira-monitor-agent.js:103-117 | exactly two fixes: first delete VulnerableController.java (no content), then create SecureController.java with non-empty content; different paths |
| `FixPlan.Label` | agent/jira-monitor-agent.js:218 | the line label is "Deleted" if and only if the action is "delete", "Created" for every other action |
| `FixPlan.LineLabel` | agent/jira-monitor-agent.js:218 | a change line starts with the deletion label if and only if its fix is a deletion |
| `FixPlan.ChangeListLines` | agent/jira-monitor-agent.js:218 | for single-line paths and reasons, the change list splits at newlines into exactly one line per fix, in plan order |
| `FixPlan.GeneratedChangeList` | agent/jira-monitor-agent.js:103-118 | the change list of the generated plan is the deleted line for VulnerableController.java, a newline, and the created line for SecureController.java |
| `Publisher.BranchNameShape` | agent/jira-monitor-agent.js:165 | the branch name is "fix/" + lower-cased key + "-sonarqube-issues", and the key part can be read back from it and holds no upper-case ASCII letter |
| `Publisher.BranchNameCollision` | agent/jira-monitor-agent.js:165 | two keys give the same branch if and only if they agree up to ASCII case |
| `Publisher.RepoParts` | agent/jira-monitor-agent.js:166 | owner is the text before the first '/', and repo the text between the first and the second '/' (or the end); repo is missing exactly when the setting has no '/', and then owner is the whole setting |
| `Publisher.RepoPartsOfPair` | agent/jira-monitor-agent.js:166 | "owner/repo" with slash-free halves splits back into those halves |
| `Text.SplitJoin` | agent/jira-monitor-agent.js:166 | `split` undoes `join` when no part contains the separator (and `join` undoes `split` always) |
| `Publisher.CreateBranch` | agent/jira-monitor-agent.js:181-195 | branch creation succeeds → created; error status 422 → reuse the existing branch; any other error → abort with that error |
| `Publisher.DeleteFile` | agent/jira-monitor-agent.js:236-262 | on success only the named path may change and it ends up absent unless a 404 was reported; a missing file or a 404 leaves every file as it was; only non-404 errors propagate, unchanged |
| `Publisher.CreateFile` | agent/jira-monitor-agent.js:267-285 | succeeds exactly when there is content and no error; then the path holds that content and nothing else changes; every error propagates |
| `Publisher.ApplyFix` | agent/jira-monitor-agent.js:198-204 | actions other than delete and create change nothing; a fix changes at most its own path; a successful delete leaves its path absent unless a 404 was reported; a successful create has content and leaves that content at its path |
| `Publisher.ApplyFixFails` | agent/jira-monitor-agent.js:198-204 | a fix raises an error exactly when `Fails` holds, and the error is `FailureOf` |
| `Publisher.ApplyFixesUntouched` | agent/jira-monitor-agent.js:198-204 | after a successful application every path no fix names is unchanged |
| `Publisher.ApplyFixesError` | agent/jira-monitor-agent.js:198-204 | the plan fails if and only if some fix fails, and then with the error of the first failing fix |
| `Publisher.ApplyFixesAppend` | agent/jira-monitor-agent.js:198-204 | fixes are applied in plan order: applying a + b is applying a, then b to its result |
| `Publisher.ApplyGeneratedPlan` | agent/jira-monitor-agent.js:198-204 | with no errors on its two paths, the generated plan removes VulnerableController.java, writes SecureController.java and leaves every other file as it was |
| `Publisher.PrBodyContents` | agent/jira-monitor-agent.js:213-227 | for any change list, the body links the ticket and carries that list whole, right after the "Changes" heading and right before the "JIRA Ticket" heading, so no other line is in the section (the pull request passes `ChangeList` of its plan) |
| `Publisher.OpenPullRequest` | agent/jira-monitor-agent.js:207-228 | the head is "fix/", then the lower-cased ticket key, then "-sonarqube-issues"; the title is "Fix: " followed by the summary unchanged; the body contains the ticket link, and its "Changes" section is exactly the plan's change list; the base is the default branch, and owner/repo come from splitting the setting |
| `Publisher.CreatePullRequest` | agent/jira-monitor-agent.js:164-231 | succeeds if and only if every step succeeds (422 on branch creation counting as success); on success it records the request, how the branch was obtained and the branch's files after the plan; on failure the error is that of the first failing step |
| `Text.DecimalRoundTrip` | src/main/java/com/example/mathapi/controller/MathController.java:132 | reading back the decimal digits `String.valueOf` writes for a code gives the code |
| `MathController.ValidateRequest` | src/main/java/com/example/mathapi/controller/MathController.java:32-36 | throws IllegalArgumentException("Request body cannot be null") if and only if the request is null |
| `MathController.CreateErrorResponse` | src/main/java/com/example/mathapi/controller/MathController.java:129-134 | the response has the given status; the body has exactly the keys "error" and "status"; "status" holds the HTTP code in decimal digits, with no leading zero |
| `MathController.ErrorStatusIdentifies` | src/main/java/com/example/mathapi/controller/MathController.java:129-134 | two error bodies carry the same "status" field if and only if their HTTP statuses are the same |
| `MathController.Operation` | src/main/java/com/example/mathapi/controller/MathController.java:38-88 | add → "addition", subtract → "subtraction", multiply → "multiplication", divide → "division" |
| `MathController.OperationIdentifiesEndpoint` | src/main/java/com/example/mathapi/controller/MathController.java:38-88 | distinct endpoints carry distinct labels |
| `MathController.Calculate` | src/main/java/com/example/mathapi/controller/MathController.java:38-88 | a null body gives 400 "Request body cannot be null"; 200 if and only if the body is present and the service returns, with the endpoint's label; IllegalArgument/Arithmetic → 400, anything else → 500 |
| `MathController.EndpointErrorBody` | src/main/java/com/example/mathapi/controller/MathController.java:44-48 | every error response carries its own code in "status", the raw message on 400 and "Internal server error: " + message on 500 |
| `MathController.ValidFilenameIff` | src/main/java/com/example/mathapi/controller/MathController.java:125-127 | a filename matches `[a-zA-Z0-9._-]+` if and only if it is non-empty and every character is an ASCII letter, digit, '.', '_' or '-' |
| `MathController.ExportResults` | src/main/java/com/example/mathapi/controller/MathController.java:109-123 | an invalid filename gives 400 "Invalid filename" and builds no process; a valid one builds `cat /var/log/math/<name>.log` and answers 200 or 500 "Export error: " + message |
| `MathController.ExportPathConfined` | src/main/java/com/example/mathapi/controller/MathController.java:116 | a built path is one component directly below /var/log/math/: no '/', and neither "." nor ".." |
| `VulnerableController.ComplexMethod` | src/main/java/com/example/mathapi/controller/VulnerableController.java:65-91 | always one of the seven "Case k"; each case holds if and only if its flat condition on a, b, c holds |
| `VulnerableController.EveryCaseReachable` | src/main/java/com/example/mathapi/controller/VulnerableController.java:65-91 | each of the seven answers is produced by some input |
| `VulnerableController.EvaluateExpression` | src/main/java/com/example/mathapi/controller/VulnerableController.java:47-56 | the answer is "Result: " followed by the expression unchanged |

## Left out

- HTTP transport to JIRA and GitHub, Basic authentication and base64 encoding
  of file contents: every call is its answer (`Results.Result`, `Results.Reply`).
- The JQL query text and the 50-result cap of the search (agent lines 40-45):
  the search answer is an input sequence of tickets.
- `start`, `setInterval` timing and console logging. A run is modelled as a
  sequence of poll answers.
- `JiraMonitorAgent.Run`, `JiraMonitorAgent.AgentRun` and
  `JiraMonitorAgent.RunSkipsProcessed` assume that each poll finishes before the
  next one starts. The source does not guarantee this. After the first awaited
  poll (line 29), `setInterval` (line 32) starts a new poll every interval
  without waiting for the one before. A key is marked only once the awaited
  `processTicket` returns (lines 58-59). So a poll that starts while another is
  still inside `processTicket` can hand the same key over again, which means a
  second pull-request attempt and a second comment. The at-most-once property is
  proved for polls that run one after another, not for overlapping polls.
- `updateTicketStatus` only logs, so it is treated as a step that cannot fail.
- The CLI configuration block (lines 334-347). The `githubRepo` and `jiraUrl`
  settings are parameters, and an undefined setting is not modelled.
- A ticket without `fields`: line 72 would throw outside the `try` and end the
  pass. Tickets are modelled with a summary always present.
- `getSecureControllerContent`: its Java text is represented by a short
  non-empty constant. Only being non-empty matters to the agent.
- `Text.Lower`: models `toLowerCase` on ASCII letters only, because JavaScript's
  full Unicode case mapping is a library table. `Publisher.BranchNameCollision`
  is stated for that mapping.
- `Publisher.NoContent`: the TypeError thrown for a create fix without content
  carries a stand-in message, not Node's exact wording.
- The commit SHA returned by `getRef` is only checked for success. How GitHub
  builds the new branch from it is part of the host, and the model takes the
  fix branch's files (`Host.tree`) as given.
- `Host.faults` gives one error per path, so a path touched twice by one plan
  fails the same way both times.
- `MathService` (IEEE-754 double arithmetic, overflow and small-divisor checks)
  and the `MathResponse` bean. Each endpoint takes the service outcome as a
  function, and results are carried as opaque `real` values.
- `getHistory` of the math controller (JDBC access); `executeQuery`,
  `getRandomNumber` and `unusedMethod` of the vulnerable controller; and the
  actual start of the `cat` process. These are I/O or randomness. Only the
  export guard and the command line it builds are modelled.
- Spring request binding and annotations, and a null `filename` path
  variable, which Spring never passes.
- `.github/scripts/create-jira-ticket.js`, the script that files the ticket;
  it is not part of this model.

=== FILE: agent.dfy ===
/** The JIRA monitor agent: one poll pass over the search results, the set of
    ticket keys already handed to `processTicket`, and the single comment each
    processed ticket receives.

    The agent's observable behaviour is recorded in its state: the keys it
    passed to `processTicket`, in order, and the comments it attempted to post,
    in order. Whether a comment post succeeds changes nothing, because
    `addJiraComment` swallows its own errors; the attempt records the answer. */
module JiraMonitorAgent {
  import opened Results
  import opened Publisher
  import opened FixPlan

  /** The fields of a searched ticket the agent reads. */
  datatype Ticket = Ticket(key: string, summary: string)

  /** One comment post: the ticket, the text, and whether JIRA accepted it. */
  datatype Comment = Comment(key: string, text: string, delivered: bool)

  /** Everything outside the agent: its configuration, and for each ticket key
      what GitHub answers while that ticket is processed and what JIRA
      answers to that ticket's comment post. */
  datatype World = World(cfg: Config, hostFor: string -> Host, commentFor: string -> Reply)

  /** The agent's state over one run. `processed` is `processedTickets`;
      `calls` lists the tickets passed to `processTicket`; `comments` lists
      the comment posts made. */
  datatype Agent = Agent(processed: set<string>, calls: seq<Ticket>, comments: seq<Comment>)

  /** A freshly constructed agent. */
  const Start: Agent := Agent({}, [], [])

  const SuccessPrefix: string := "Automated fix created: "
  const FailurePrefix: string := "Failed to create automated fix: "

  /** `processTicket`: mark the ticket in progress (which only logs), generate
      the fix plan, publish it, and post exactly one comment — the pull
      request link on success, the error message on any failure. */
  function ProcessTicket(t: Ticket, w: World): (c: Comment)
    ensures c.key == t.key
    ensures c.delivered <==> w.commentFor(t.key).Accept?
    ensures var r := CreatePullRequest(t.key, t.summary, w.cfg, GenerateFix(), w.hostFor(t.key));
      && (r.Ok? ==> c.text == SuccessPrefix + r.value.pr.url)
      && (r.Err? ==> c.text == FailurePrefix + r.error.message)
  {
    var plan := GenerateFix();
    var outcome := CreatePullRequest(t.key, t.summary, w.cfg, plan, w.hostFor(t.key));
    var text :=
      match outcome
      case Ok(published) => SuccessPrefix + published.pr.url
      case Err(e) => FailurePrefix + e.message;
    Comment(t.key, text, w.commentFor(t.key).Accept?)
  }

  /** The two comment texts can be told apart, so a comment says which way
      its ticket went. */
  lemma CommentTells(t: Ticket, w: World)
    ensures var c := ProcessTicket(t, w);
      Text.IsPrefix(SuccessPrefix, c.text) <==>
        CreatePullRequest(t.key, t.summary, w.cfg, GenerateFix(), w.hostFor(t.key)).Ok?
  {
    var c := ProcessTicket(t, w);
    assert SuccessPrefix[0] != FailurePrefix[0];
    if Text.IsPrefix(SuccessPrefix, c.text) {
      assert c.text[0] == SuccessPrefix[0];
    }
  }

  /** `processTicket` against a given world, as the poll loop sees it: a call
      that always returns, having posted one comment. */
  function ProcessorOf(w: World): Ticket -> Comment
  {
    t => ProcessTicket(t, w)
  }

  /** Hands one ticket to `processTicket` and then marks its key. */
  function Handle(a: Agent, t: Ticket, process: Ticket -> Comment): Agent
  {
    Agent(a.processed + {t.key}, a.calls + [t], a.comments + [process(t)])
  }

  /** The `for (const ticket of tickets)` loop of one poll: a ticket whose key
      is already processed is skipped. */
  function Pass(a: Agent, tickets: seq<Ticket>, process: Ticket -> Comment): Agent
    decreases |tickets|
  {
    if |tickets| == 0 then a
    else
      var next := if tickets[0].key in a.processed then a else Handle(a, tickets[0], process);
      Pass(next, tickets[1..], process)
  }

  /** `pollJiraTickets`: a failed search is logged and leaves the agent as it
      was; otherwise the pass runs over the returned tickets. */
  function Poll(a: Agent, search: Result<seq<Ticket>>, process: Ticket -> Comment): (b: Agent)
    ensures search.Err? ==> b == a
  {
    match search
    case Err(_) => a
    case Ok(tickets) => Pass(a, tickets, process)
  }

  /** A run: the initial poll and the timer's polls, one after another. */
  function Run(a: Agent, searches: seq<Result<seq<Ticket>>>, process: Ticket -> Comment): Agent
    decreases |searches|
  {
    if |searches| == 0 then a
    else Run(Poll(a, searches[0], process), searches[1..], process)
  }

  function Keys(tickets: seq<Ticket>): set<string> {
    set i | 0 <= i < |tickets| :: tickets[i].key
  }

  predicate DistinctKeys(tickets: seq<Ticket>) {
    forall i, j :: 0 <= i < j < |tickets| ==> tickets[i].key != tickets[j].key
  }

  /** The agent's invariant: no key was handed to `processTicket` twice, the
      processed set holds exactly the keys handed over, and the comments pair
      up one-to-one, in order, with those calls. */
  ghost predicate Valid(a: Agent, process: Ticket -> Comment) {
    && DistinctKeys(a.calls)
    && a.processed == Keys(a.calls)
    && |a.comments| == |a.calls|
    && forall i :: 0 <= i < |a.calls| ==> a.comments[i] == process(a.calls[i])
  }

  lemma KeysAppend(calls: seq<Ticket>, t: Ticket)
    ensures Keys(calls + [t]) == Keys(calls) + {t.key}
  {
    var all := calls + [t];
    forall k | k in Keys(calls) ensures k in Keys(all) {
      var i :| 0 <= i < |calls| && calls[i].key == k;
      assert all[i].key == k;
    }
    assert all[|calls|].key == t.key;
  }

  lemma KeysCons(tickets: seq<Ticket>)
    requires |tickets| > 0
    ensures Keys(tickets) == {tickets[0].key} + Keys(tickets[1..])
  {
  }

  /** A freshly constructed agent satisfies the invariant, whatever processes tickets. */
  lemma StartValid(process: Ticket -> Comment)
    ensures Valid(Start, process)
  {
  }

  /** A pass only appends: the processed set grows, the earlier calls and
      comments stay as they were, and every ticket it hands over was returned
      by the search and not processed before. */
  lemma {:induction false} PassExtends(a: Agent, tickets: seq<Ticket>, process: Ticket -> Comment)
    ensures var b := Pass(a, tickets, process);
      && a.processed <= b.processed
      && |a.calls| <= |b.calls| && b.calls[..|a.calls|] == a.calls
      && |b.comments| - |b.calls| == |a.comments| - |a.calls|
      && |a.comments| <= |b.comments| && b.comments[..|a.comments|] == a.comments
      && forall i :: |a.calls| <= i < |b.calls| ==>
           b.calls[i].key !in a.processed && b.calls[i] in tickets
    decreases |tickets|
  {
    if |tickets| > 0 {
      var next := if tickets[0].key in a.processed then a else Handle(a, tickets[0], process);
      PassExtends(next, tickets[1..], process);
      var b := Pass(a, tickets, process);
      assert b.calls[..|a.calls|] == b.calls[..|next.calls|][..|a.calls|];
      assert b.comments[..|a.comments|] == b.comments[..|next.comments|][..|a.comments|];
      forall i | |a.calls| <= i < |b.calls|
        ensures b.calls[i].key !in a.processed && b.calls[i] in tickets
      {
        if i < |next.calls| {
          assert b.calls[i] == next.calls[i] == tickets[0];
        } else {
          assert b.calls[i] in tickets[1..];
        }
      }
    }
  }

  /** After a pass every key the search returned is processed, and nothing
      else was added. */
  lemma {:induction false} PassCovers(a: Agent, tickets: seq<Ticket>, process: Ticket -> Comment)
    ensures Pass(a, tickets, process).processed == a.processed + Keys(tickets)
    decreases |tickets|
  {
    if |tickets| > 0 {
      var next := if tickets[0].key in a.processed then a else Handle(a, tickets[0], process);
      PassCovers(next, tickets[1..], process);
      KeysCons(tickets);
    }
  }

  /** Handing over an unprocessed ticket keeps the invariant. */
  lemma HandleValid(a: Agent, t: Ticket, process: Ticket -> Comment)
    requires Valid(a, process) && t.key !in a.processed
    ensures Valid(Handle(a, t, process), process)
  {
    KeysAppend(a.calls, t);
    var b := Handle(a, t, process);
    forall i, j | 0 <= i < j < |b.calls| ensures b.calls[i].key != b.calls[j].key {
      if j == |a.calls| {
        assert b.calls[i].key in Keys(a.calls) by { assert b.calls[i] == a.calls[i]; }
      }
    }
  }

  /** A pass keeps the invariant. */
  lemma {:induction false} PassValid(a: Agent, tickets: seq<Ticket>, process: Ticket -> Comment)
    requires Valid(a, process)
    ensures Valid(Pass(a, tickets, process), process)
    decreases |tickets|
  {
    if |tickets| > 0 {
      if tickets[0].key !in a.processed {
        HandleValid(a, tickets[0], process);
      }
      var next := if tickets[0].key in a.processed then a else Handle(a, tickets[0], process);
      PassValid(next, tickets[1..], process);
    }
  }

  /** The keys of two ticket lists, one after the other, are the keys of each. */
  lemma KeysConcat(xs: seq<Ticket>, ys: seq<Ticket>)
    ensures Keys(xs + ys) == Keys(xs) + Keys(ys)
  {
    var all := xs + ys;
    forall k | k in Keys(all) ensures k in Keys(xs) + Keys(ys) {
      var i :| 0 <= i < |all| && all[i].key == k;
      if i >= |xs| { assert ys[i - |xs|].key == k; }
    }
    forall k | k in Keys(xs) + Keys(ys) ensures k in Keys(all) {
      if k in Keys(xs) {
        var i :| 0 <= i < |xs| && xs[i].key == k;
        assert all[i].key == k;
      } else {
        var i :| 0 <= i < |ys| && ys[i].key == k;
        assert all[|xs| + i].key == k;
      }
    }
  }

  lemma DistinctKeysSuffix(xs: seq<Ticket>, ys: seq<Ticket>)
    requires DistinctKeys(xs + ys)
    ensures DistinctKeys(ys)
  {
    forall i, j | 0 <= i < j < |ys| ensures ys[i].key != ys[j].key {
      assert ys[i] == (xs + ys)[|xs| + i] && ys[j] == (xs + ys)[|xs| + j];
    }
  }

  /** The tickets one pass hands to `processTicket` carry exactly the returned
      keys that were not processed before it, each key once, even when the
      search returns a key twice. */
  lemma PassProcessesExactly(a: Agent, tickets: seq<Ticket>, process: Ticket -> Comment)
    requires Valid(a, process)
    ensures var b := Pass(a, tickets, process);
      && |a.calls| <= |b.calls|
      && DistinctKeys(b.calls[|a.calls|..])
      && Keys(b.calls[|a.calls|..]) == Keys(tickets) - a.processed
  {
    var b := Pass(a, tickets, process);
    PassExtends(a, tickets, process);
    PassCovers(a, tickets, process);
    PassValid(a, tickets, process);
    var handed := b.calls[|a.calls|..];
    assert b.calls == a.calls + handed;
    KeysConcat(a.calls, handed);
    DistinctKeysSuffix(a.calls, handed);
    assert Keys(handed) !! a.processed by {
      forall k | k in Keys(handed) ensures k !in a.processed {
        var i :| 0 <= i < |handed| && handed[i].key == k;
        assert b.calls[|a.calls| + i] == handed[i];
      }
    }
  }

  /** Over a whole run, from any state satisfying the invariant, the invariant
      holds: no key reaches `processTicket` twice, and each call is matched
      by exactly one comment, whatever the searches return. */
  lemma {:induction false} RunValid(a: Agent, searches: seq<Result<seq<Ticket>>>, process: Ticket -> Comment)
    requires Valid(a, process)
    ensures Valid(Run(a, searches, process), process)
    decreases |searches|
  {
    if |searches| > 0 {
      if searches[0].Ok? {
        PassValid(a, searches[0].value, process);
      }
      RunValid(Poll(a, searches[0], process), searches[1..], process);
    }
  }

  lemma {:induction false} RunExtends(a: Agent, searches: seq<Result<seq<Ticket>>>, process: Ticket -> Comment)
    ensures var b := Run(a, searches, process);
      |a.calls| <= |b.calls| && b.calls[..|a.calls|] == a.calls
    decreases |searches|
  {
    if |searches| > 0 {
      var next := Poll(a, searches[0], process);
      if searches[0].Ok? {
        PassExtends(a, searches[0].value, process);
      }
      RunExtends(next, searches[1..], process);
      var b := Run(a, searches, process);
      assert b.calls[..|a.calls|] == b.calls[..|next.calls|][..|a.calls|];
    }
  }

  /** A ticket processed by an earlier poll is never handed to
      `processTicket` again in the same run. */
  lemma RunSkipsProcessed(a: Agent, earlier: seq<Result<seq<Ticket>>>, later: seq<Result<seq<Ticket>>>,
                          process: Ticket -> Comment, key: string)
    requires Valid(a, process)
    requires key in Run(a, earlier, process).processed
    ensures var mid := Run(a, earlier, process);
      var b := Run(mid, later, process);
      forall i :: |mid.calls| <= i < |b.calls| ==> b.calls[i].key != key
  {
    var mid := Run(a, earlier, process);
    RunValid(a, earlier, process);
    RunValid(mid, later, process);
    RunExtends(mid, later, process);
    var b := Run(mid, later, process);
    var k :| 0 <= k < |mid.calls| && mid.calls[k].key == key;
    assert b.calls[k] == mid.calls[k];
  }

  /** The agent over a whole run: each ticket key is processed at most once,
      and the i-th comment is the one `processTicket` posts for the i-th
      ticket it was given — on that ticket, with the pull request link when
      publishing succeeded and the error message when it failed. */
  lemma AgentRun(searches: seq<Result<seq<Ticket>>>, w: World)
    ensures var b := Run(Start, searches, ProcessorOf(w));
      && DistinctKeys(b.calls)
      && b.processed == Keys(b.calls)
      && |b.comments| == |b.calls|
      && forall i :: 0 <= i < |b.calls| ==>
           b.comments[i] == ProcessTicket(b.calls[i], w) && b.comments[i].key == b.calls[i].key
  {
    StartValid(ProcessorOf(w));
    RunValid(Start, searches, ProcessorOf(w));
  }
}

=== FILE: fix_plan.dfy ===
/** The fix plan the agent builds for a ticket (`generateFix`) and the
    "Changes" list it writes into the pull request body. */
module FixPlan {
  import opened Results
  import opened Text

  /** One file-level change. `action` is kept as the string the agent compares
      against, so that actions other than "delete" and "create" stay
      representable; `content` is absent on deletions. */
  datatype Fix = Fix(file: string, action: string, content: Option<string>, reason: string)

  const DeleteAction: string := "delete"
  const CreateAction: string := "create"

  const VulnerablePath: string :=
    "src/main/java/com/example/mathapi/controller/VulnerableController.java"
  const SecurePath: string :=
    "src/main/java/com/example/mathapi/controller/SecureController.java"
  const DeleteReason: string := "Remove file with multiple security vulnerabilities"
  const CreateReason: string := "Replace with secure implementation"

  /** Stand-in for the Java source text of the replacement controller; only
      its being a non-empty string matters to the agent. */
  const SecureControllerContent: string :=
    "package com.example.mathapi.controller;\n"

  /** The fixed plan: delete the vulnerable controller, then create the secure
      one. The ticket is not consulted. */
  function GenerateFix(): (plan: seq<Fix>)
    ensures |plan| == 2
    ensures plan[0].action == DeleteAction && plan[0].file == VulnerablePath
    ensures plan[0].content.None?
    ensures plan[1].action == CreateAction && plan[1].file == SecurePath
    ensures plan[1].content.Some? && |plan[1].content.value| > 0
    ensures plan[0].file != plan[1].file
  {
    [ Fix(VulnerablePath, DeleteAction, None, DeleteReason),
      Fix(SecurePath, CreateAction, Some(SecureControllerContent), CreateReason) ]
  }

  const DeletedLabel: string := "\U{1F5D1}\U{FE0F} Deleted"
  const CreatedLabel: string := "\U{2728} Created"
  const LinePrefix: string := "- "

  /** The label a change line carries: "Deleted" for a deletion, "Created"
      for every other action. */
  function Label(action: string): (l: string)
    ensures l == DeletedLabel <==> action == DeleteAction
    ensures l == CreatedLabel <==> action != DeleteAction
  {
    if action == DeleteAction then DeletedLabel else CreatedLabel
  }

  /** One line of the "Changes" list: label, quoted path and reason. */
  function ChangeLine(f: Fix): string
  {
    LinePrefix + Label(f.action) + " `" + f.file + "`: " + f.reason
  }

  /** The change lines of a plan, one per fix, in plan order. */
  function ChangeLines(plan: seq<Fix>): (lines: seq<string>)
    ensures |lines| == |plan|
    ensures forall i :: 0 <= i < |plan| ==> lines[i] == ChangeLine(plan[i])
  {
    seq(|plan|, i requires 0 <= i < |plan| => ChangeLine(plan[i]))
  }

  /** The "Changes" section as it appears in the body: the lines joined by
      newlines. */
  function ChangeList(plan: seq<Fix>): string
  {
    Join(ChangeLines(plan), '\n')
  }

  /** A fix whose path and reason are single-line. */
  predicate SingleLine(f: Fix) {
    '\n' !in f.file && '\n' !in f.reason
  }

  /** A change line starts with the deletion label exactly when its fix is a
      deletion, and with the creation label otherwise. */
  lemma LineLabel(f: Fix)
    ensures IsPrefix(LinePrefix + DeletedLabel, ChangeLine(f)) <==> f.action == DeleteAction
    ensures IsPrefix(LinePrefix + CreatedLabel, ChangeLine(f)) <==> f.action != DeleteAction
  {
    var line := ChangeLine(f);
    assert line[..|LinePrefix + Label(f.action)|] == LinePrefix + Label(f.action);
    assert line[2] == Label(f.action)[0];
  }

  /** The change list holds exactly one line per fix, in plan order: cutting it
      at the newlines recovers the lines. */
  lemma {:induction false} ChangeListLines(plan: seq<Fix>)
    requires |plan| >= 1
    requires forall i :: 0 <= i < |plan| ==> SingleLine(plan[i])
    ensures Split(ChangeList(plan), '\n') == ChangeLines(plan)
  {
    var lines := ChangeLines(plan);
    forall i | 0 <= i < |lines|
      ensures '\n' !in lines[i]
    {
      var f := plan[i];
      assert lines[i] == LinePrefix + Label(f.action) + " `" + f.file + "`: " + f.reason;
      assert '\n' !in Label(f.action);
    }
    SplitJoin(lines, '\n');
  }

  /** The change list of the generated plan. */
  lemma GeneratedChangeList()
    ensures ChangeList(GenerateFix()) ==
      LinePrefix + DeletedLabel + " `" + VulnerablePath + "`: " + DeleteReason + "\n" +
      LinePrefix + CreatedLabel + " `" + SecurePath + "`: " + CreateReason
  {
  }
}

=== FILE: math_controller.dfy ===
/** The request guards and error mapping of the math REST controller.

    The arithmetic itself (`MathService`, IEEE-754 doubles) is not modelled:
    each endpoint receives the service call's outcome as a function from the
    request to a value or a thrown exception. */
module MathController {
  import opened Results
  import opened Text

  /** A Java `String` reference, which may be `null`. */
  datatype JavaString = Null | Str(s: string)

  /** Java's `prefix + m`: a `null` operand prints as "null". */
  function Concat(prefix: string, m: JavaString): string
  {
    match m
    case Null => prefix + "null"
    case Str(s) => prefix + s
  }

  datatype HttpStatus = OK | BadRequest | InternalServerError

  /** `HttpStatus.value()`. */
  function Code(status: HttpStatus): nat
  {
    match status
    case OK => 200
    case BadRequest => 400
    case InternalServerError => 500
  }

  /** The two operands; their double values are carried, never computed on. */
  datatype MathRequest = MathRequest(operand1: real, operand2: real)

  /** The exceptions the endpoints tell apart, each with `getMessage()`. */
  datatype Exception =
    | IllegalArgument(message: JavaString)
    | Arithmetic(message: JavaString)
    | Other(message: JavaString)

  /** A response body: the error map, a single-message map, or a
      `MathResponse` of result and operation label. */
  datatype Body =
    | ErrorBody(fields: map<string, JavaString>)
    | MessageBody(entries: map<string, string>)
    | MathBody(result: real, operation: string)

  datatype Response = Response(status: HttpStatus, body: Body)

  const NullRequestMessage: string := "Request body cannot be null"
  const InternalErrorPrefix: string := "Internal server error: "

  /** `validateRequest`: throws an IllegalArgumentException exactly when the
      request body is null. */
  function ValidateRequest(request: Option<MathRequest>): (thrown: Option<Exception>)
    ensures thrown.Some? <==> request.None?
    ensures thrown.Some? ==> thrown.value == IllegalArgument(Str(NullRequestMessage))
  {
    match request
    case None => Some(IllegalArgument(Str(NullRequestMessage)))
    case Some(_) => None
  }

  /** `createErrorResponse`: a body with exactly the keys "error" and
      "status", the latter holding the decimal HTTP code without leading
      zeros, under that status. */
  function CreateErrorResponse(message: JavaString, status: HttpStatus): (r: Response)
    ensures r.status == status && r.body.ErrorBody?
    ensures r.body.fields.Keys == {"error", "status"}
    ensures r.body.fields["error"] == message
    ensures r.body.fields["status"].Str? && AllDigits(r.body.fields["status"].s)
    ensures DecimalValue(r.body.fields["status"].s) == Code(status)
    ensures r.body.fields["status"].s[0] != '0'
  {
    DecimalRoundTrip(Code(status));
    Response(status, ErrorBody(map["error" := message, "status" := Str(Decimal(Code(status)))]))
  }

  /** The "status" field of an error body identifies the response's status:
      two error responses carry the same field exactly when their statuses
      agree. */
  lemma ErrorStatusIdentifies(m1: JavaString, s1: HttpStatus, m2: JavaString, s2: HttpStatus)
    ensures CreateErrorResponse(m1, s1).body.fields["status"] == CreateErrorResponse(m2, s2).body.fields["status"]
            <==> s1 == s2
  {
  }

  /** The two `catch` clauses every arithmetic endpoint shares. */
  function ExceptionResponse(e: Exception): (r: Response)
    ensures !e.Other? ==> r == CreateErrorResponse(e.message, BadRequest)
    ensures e.Other? ==> r == CreateErrorResponse(Str(Concat(InternalErrorPrefix, e.message)), InternalServerError)
  {
    match e
    case IllegalArgument(m) => CreateErrorResponse(m, BadRequest)
    case Arithmetic(m) => CreateErrorResponse(m, BadRequest)
    case Other(m) => CreateErrorResponse(Str(Concat(InternalErrorPrefix, m)), InternalServerError)
  }

  datatype Endpoint = Add | Subtract | Multiply | Divide

  /** The operation label each endpoint puts in its `MathResponse`. */
  function Operation(ep: Endpoint): (name: string)
    ensures ep == Add <==> name == "addition"
    ensures ep == Subtract <==> name == "subtraction"
    ensures ep == Multiply <==> name == "multiplication"
    ensures ep == Divide <==> name == "division"
  {
    match ep
    case Add => "addition"
    case Subtract => "subtraction"
    case Multiply => "multiplication"
    case Divide => "division"
  }

  /** The label of a successful response tells which endpoint produced it. */
  lemma OperationIdentifiesEndpoint(e1: Endpoint, e2: Endpoint)
    ensures Operation(e1) == Operation(e2) <==> e1 == e2
  {
  }

  /** What the endpoint's `MathService` call does with a request. */
  datatype Computation = Value(result: real) | Throws(e: Exception)

  /** One arithmetic endpoint: validate the body, call the service, wrap the
      result with the endpoint's label, and map exceptions to 400 or 500. */
  function Calculate(ep: Endpoint, request: Option<MathRequest>, compute: MathRequest -> Computation)
    : (r: Response)
    ensures request.None? ==> r == CreateErrorResponse(Str(NullRequestMessage), BadRequest)
    ensures r.status == OK <==> request.Some? && compute(request.value).Value?
    ensures r.status == OK ==> r.body == MathBody(compute(request.value).result, Operation(ep))
    ensures request.Some? && compute(request.value).Throws? ==>
      r == ExceptionResponse(compute(request.value).e)
    ensures r.status == BadRequest <==>
      request.None? || (compute(request.value).Throws? && !compute(request.value).e.Other?)
  {
    match ValidateRequest(request)
    case Some(e) => ExceptionResponse(e)
    case None =>
      match compute(request.value)
      case Value(v) => Response(OK, MathBody(v, Operation(ep)))
      case Throws(e) => ExceptionResponse(e)
  }

  /** Every error response an endpoint gives states its own code in its
      "status" field, and carries the raw message on 400 and the prefixed
      message on 500. */
  lemma EndpointErrorBody(ep: Endpoint, request: Option<MathRequest>, compute: MathRequest -> Computation)
    ensures var r := Calculate(ep, request, compute);
      r.status != OK ==>
        && r.body.ErrorBody? && r.body.fields.Keys == {"error", "status"}
        && r.body.fields["status"] == Str(Decimal(Code(r.status)))
        && (r.status == InternalServerError ==>
              r.body.fields["error"] == Str(Concat(InternalErrorPrefix, compute(request.value).e.message)))
        && (r.status == BadRequest && request.Some? ==>
              r.body.fields["error"] == compute(request.value).e.message)
  {
  }

  /** The character class `[a-zA-Z0-9._-]`. */
  predicate FilenameChar(c: char) {
    'a' <= c <= 'z' || 'A' <= c <= 'Z' || '0' <= c <= '9' || c == '.' || c == '_' || c == '-'
  }

  /** Whole-string match of `[a-zA-Z0-9._-]+`: one character of the class,
      followed by the same pattern or by the end of the string. */
  predicate MatchesFilenamePattern(s: string)
    decreases |s|
  {
    |s| >= 1 && FilenameChar(s[0]) && (|s| == 1 || MatchesFilenamePattern(s[1..]))
  }

  /** `isValidFilename`. */
  predicate IsValidFilename(filename: string) {
    MatchesFilenamePattern(filename)
  }

  /** A filename is valid exactly when it is non-empty and made only of ASCII
      letters, digits, '.', '_' and '-'. */
  lemma {:induction false} ValidFilenameIff(s: string)
    ensures IsValidFilename(s) <==> |s| > 0 && forall i :: 0 <= i < |s| ==> FilenameChar(s[i])
    decreases |s|
  {
    if |s| > 1 {
      ValidFilenameIff(s[1..]);
      assert forall i :: 1 <= i < |s| ==> s[i] == s[1..][i - 1];
    }
  }

  const LogDirectory: string := "/var/log/math/"
  const LogExtension: string := ".log"
  const InvalidFilenameMessage: string := "Invalid filename"

  /** The file `exportResults` hands to `cat`. */
  function LogPath(filename: string): string {
    LogDirectory + filename + LogExtension
  }

  /** What starting the process does: it starts, or throws with a message. */
  datatype Launch = Started | LaunchFailed(message: JavaString)

  /** `exportResults`: the response, and the command line of the process it
      builds, if it builds one. */
  datatype Export = Export(response: Response, command: Option<seq<string>>)

  function ExportResults(filename: string, launch: Launch): (x: Export)
    ensures !IsValidFilename(filename) <==> x.command.None?
    ensures !IsValidFilename(filename) ==>
      x.response == CreateErrorResponse(Str(InvalidFilenameMessage), BadRequest)
    ensures IsValidFilename(filename) ==> x.command == Some(["cat", LogPath(filename)])
    ensures IsValidFilename(filename) && launch.Started? ==>
      x.response == Response(OK, MessageBody(map["message" := "Export completed for: " + filename]))
    ensures IsValidFilename(filename) && launch.LaunchFailed? ==>
      x.response == CreateErrorResponse(Str(Concat("Export error: ", launch.message)), InternalServerError)
  {
    if !IsValidFilename(filename) then
      Export(CreateErrorResponse(Str(InvalidFilenameMessage), BadRequest), None)
    else
      var command := ["cat", LogPath(filename)];
      match launch
      case Started =>
        Export(Response(OK, MessageBody(map["message" := "Export completed for: " + filename])), Some(command))
      case LaunchFailed(m) =>
        Export(CreateErrorResponse(Str(Concat("Export error: ", m)), InternalServerError), Some(command))
  }

  /** Any path `exportResults` builds names one file directly inside the log
      directory: below the directory prefix there is no '/', and that single
      component is neither "." nor "..". */
  lemma ExportPathConfined(filename: string, launch: Launch)
    requires ExportResults(filename, launch).command.Some?
    ensures var path := ExportResults(filename, launch).command.value[1];
      && IsPrefix(LogDirectory, path)
      && '/' !in path[|LogDirectory|..]
      && path[|LogDirectory|..] != "."
      && path[|LogDirectory|..] != ".."
  {
    ValidFilenameIff(filename);
    var path := LogPath(filename);
    var component := path[|LogDirectory|..];
    assert component == filename + LogExtension;
    assert path[..|LogDirectory|] == LogDirectory;
    assert forall i :: 0 <= i < |filename| ==> filename[i] != '/';
    assert |component| >= 5;
  }
}

=== FILE: publisher.dfy ===
/** `createPullRequest` and the file operations it dispatches to.

    The GitHub API is replaced by a `Host` record per ticket: the answers the
    agent gets to each request, and the files of the fix branch as a map from
    path to content. Requests are made, and the model's checks happen, in the
    order the agent makes them; the first error aborts the rest. */
module Publisher {
  import opened Results
  import opened Text
  import opened FixPlan

  type Files = map<string, string>

  /** What GitHub answers while a pull request is prepared. */
  datatype Host = Host(
    repoInfo: Result<string>,   // repos.get: the default branch's name
    headRef: Result<string>,    // git.getRef on the default branch: its commit SHA
    createRef: Reply,           // git.createRef for the fix branch
    tree: Files,                // the fix branch's files once it exists (new or reused)
    faults: map<string, Error>, // the error the contents API returns for a path, if any
    pull: Result<string>)       // pulls.create: the new pull request's html_url

  /** The agent's configuration as far as pull requests go. */
  datatype Config = Config(jiraUrl: string, githubRepo: string)

  /** The pull request as created: target repository, request fields, URL. */
  datatype PullRequest = PullRequest(
    owner: string, repo: Option<string>,
    title: string, head: string, base: string, body: string, url: string)

  /** How the fix branch came to exist. */
  datatype BranchUse = Created | Reused

  /** A successful `createPullRequest`: the request, how the branch was
      obtained, and the branch's files after the plan was applied. */
  datatype Published = Published(pr: PullRequest, branch: BranchUse, files: Files)

  const BranchPrefix: string := "fix/"
  const BranchSuffix: string := "-sonarqube-issues"

  /** The fix branch's name, derived from the ticket key alone. */
  function BranchName(key: string): string
  {
    BranchPrefix + Lower(key) + BranchSuffix
  }

  /** The lower-cased key sitting between the branch name's affixes. */
  function BranchKey(branch: string): string
    requires |branch| >= |BranchPrefix| + |BranchSuffix|
  {
    branch[|BranchPrefix|..|branch| - |BranchSuffix|]
  }

  /** The branch name starts with "fix/", ends with "-sonarqube-issues", and
      what lies between is the lower-cased key. */
  lemma BranchNameShape(key: string)
    ensures IsPrefix(BranchPrefix, BranchName(key))
    ensures |BranchName(key)| == |BranchPrefix| + |key| + |BranchSuffix|
    ensures BranchName(key)[|BranchName(key)| - |BranchSuffix|..] == BranchSuffix
    ensures BranchKey(BranchName(key)) == Lower(key)
    ensures forall i :: 0 <= i < |key| ==> !IsUpper(BranchKey(BranchName(key))[i])
  {
  }

  /** Two keys share a branch exactly when they agree up to ASCII case. */
  lemma BranchNameCollision(k1: string, k2: string)
    ensures BranchName(k1) == BranchName(k2) <==> Lower(k1) == Lower(k2)
  {
    if BranchName(k1) == BranchName(k2) {
      BranchNameShape(k1);
      BranchNameShape(k2);
    }
  }

  /** `const [owner, repo] = githubRepo.split('/')`: the text before the first
      slash, and the text between the first and second slash when there is a
      first slash (JavaScript leaves `repo` undefined otherwise). */
  function RepoParts(githubRepo: string): (r: (string, Option<string>))
    ensures '/' !in r.0
    ensures r.1.Some? ==> '/' !in r.1.value
    ensures r.1.None? <==> '/' !in githubRepo
    ensures r.1.None? ==> r.0 == githubRepo
    ensures r.1.Some? ==>
      && IsPrefix(r.0 + "/" + r.1.value, githubRepo)
      && (|r.0| + 1 + |r.1.value| == |githubRepo| || githubRepo[|r.0| + 1 + |r.1.value|] == '/')
  {
    var parts := Split(githubRepo, '/');
    assert '/' !in githubRepo ==> parts == [githubRepo] by {
      if '/' !in githubRepo { SplitNoSeparator(githubRepo, '/'); }
    }
    assert |parts| >= 2 ==>
      (&& IsPrefix(parts[0] + "/" + parts[1], githubRepo)
       && (|parts[0]| + 1 + |parts[1]| == |githubRepo| || githubRepo[|parts[0]| + 1 + |parts[1]|] == '/')) by {
      if |parts| >= 2 { JoinFront(parts, '/'); }
    }
    if |parts| >= 2 then (parts[0], Some(parts[1])) else (parts[0], None)
  }

  /** An `owner/repo` string with a single slash splits back into its halves. */
  lemma RepoPartsOfPair(owner: string, repo: string)
    requires '/' !in owner && '/' !in repo
    ensures RepoParts(owner + "/" + repo) == (owner, Some(repo))
  {
    var parts := [owner, repo];
    assert Join(parts, '/') == owner + "/" + repo;
    SplitJoin(parts, '/');
  }

  /** `createRef`: success creates the branch; 422 (the reference already
      exists) reuses it; any other error aborts. */
  function CreateBranch(reply: Reply): (r: Result<BranchUse>)
    ensures r == Ok(Created) <==> reply.Accept?
    ensures r == Ok(Reused) <==> reply.Reject? && HasStatus(reply.error, 422)
    ensures r.Err? <==> reply.Reject? && !HasStatus(reply.error, 422)
    ensures r.Err? ==> r.error == reply.error
  {
    match reply
    case Accept => Ok(Created)
    case Reject(e) => if HasStatus(e, 422) then Ok(Reused) else Err(e)
  }

  /** The error the contents API gives when `path` is not on the branch. */
  const NotFound: Error := Error(Some(404), "Not Found")

  /** The error `Buffer.from` throws when a create fix has no content. */
  const NoContent: Error := Error(None, "content is undefined")

  /** True when `a` and `b` agree on every path other than `path`. */
  ghost predicate SameExcept(a: Files, b: Files, path: string) {
    forall p :: p != path ==> (p in a <==> p in b) && (p in a ==> a[p] == b[p])
  }

  /** `deleteFile`: read the file, then delete it; a 404 from either request
      means there is nothing to delete and is not an error, every other error
      propagates. */
  function DeleteFile(files: Files, faults: map<string, Error>, path: string): (r: Result<Files>)
    ensures r.Ok? ==> SameExcept(files, r.value, path)
    ensures r.Ok? ==> path !in r.value || (path in faults && HasStatus(faults[path], 404))
    ensures path !in faults ==> r == Ok(files - {path})
    ensures path !in files && path !in faults ==> r == Ok(files)
    ensures path in faults && HasStatus(faults[path], 404) ==> r == Ok(files)
    ensures r.Err? <==> path in faults && !HasStatus(faults[path], 404)
    ensures r.Err? ==> r.error == faults[path]
  {
    var reply :=
      if path in faults then Reject(faults[path])
      else if path in files then Accept
      else Reject(NotFound);
    assert path !in files ==> files - {path} == files;
    match reply
    case Accept => Ok(files - {path})
    case Reject(e) => if HasStatus(e, 404) then Ok(files) else Err(e)
  }

  /** `createFile`: write `content` at `path`; any failure propagates, and a
      missing content fails before the request is made. */
  function CreateFile(files: Files, faults: map<string, Error>, path: string, content: Option<string>)
    : (r: Result<Files>)
    ensures r.Ok? ==> SameExcept(files, r.value, path)
    ensures r.Ok? <==> content.Some? && path !in faults
    ensures r.Ok? ==> path in r.value && r.value[path] == content.value
    ensures content.None? ==> r == Err(NoContent)
    ensures content.Some? && path in faults ==> r == Err(faults[path])
  {
    match content
    case None => Err(NoContent)
    case Some(c) => if path in faults then Err(faults[path]) else Ok(files[path := c])
  }

  /** Dispatches one fix on its action; other actions change nothing. */
  function ApplyFix(files: Files, faults: map<string, Error>, f: Fix): (r: Result<Files>)
    ensures f.action != DeleteAction && f.action != CreateAction ==> r == Ok(files)
    ensures r.Ok? ==> SameExcept(files, r.value, f.file)
    ensures r.Ok? && f.action == DeleteAction ==>
      f.file !in r.value || (f.file in faults && HasStatus(faults[f.file], 404))
    ensures r.Ok? && f.action == CreateAction ==>
      f.content.Some? && f.file in r.value && r.value[f.file] == f.content.value
  {
    if f.action == DeleteAction then DeleteFile(files, faults, f.file)
    else if f.action == CreateAction then CreateFile(files, faults, f.file, f.content)
    else Ok(files)
  }

  /** Whether a fix aborts the plan. This depends on the fix and the faults
      only, not on the files the earlier fixes left behind. */
  predicate Fails(faults: map<string, Error>, f: Fix) {
    if f.action == DeleteAction then f.file in faults && !HasStatus(faults[f.file], 404)
    else if f.action == CreateAction then f.content.None? || f.file in faults
    else false
  }

  /** The error a failing fix raises. */
  function FailureOf(faults: map<string, Error>, f: Fix): Error
    requires Fails(faults, f)
  {
    if f.action == CreateAction && f.content.None? then NoContent else faults[f.file]
  }

  lemma ApplyFixFails(files: Files, faults: map<string, Error>, f: Fix)
    ensures ApplyFix(files, faults, f).Err? <==> Fails(faults, f)
    ensures Fails(faults, f) ==> ApplyFix(files, faults, f).error == FailureOf(faults, f)
  {
  }

  /** The `for (const fix of fixes)` loop: fixes in plan order, each on the
      files the previous ones left, stopping at the first error. */
  function ApplyFixes(files: Files, faults: map<string, Error>, plan: seq<Fix>): Result<Files>
    decreases |plan|
  {
    if |plan| == 0 then Ok(files)
    else
      match ApplyFix(files, faults, plan[0])
      case Err(e) => Err(e)
      case Ok(next) => ApplyFixes(next, faults, plan[1..])
  }

  /** A path no fix names keeps its content. */
  lemma {:induction false} ApplyFixesUntouched(files: Files, faults: map<string, Error>, plan: seq<Fix>, p: string)
    requires forall i :: 0 <= i < |plan| ==> plan[i].file != p
    requires ApplyFixes(files, faults, plan).Ok?
    ensures var out := ApplyFixes(files, faults, plan).value;
      (p in out <==> p in files) && (p in files ==> out[p] == files[p])
    decreases |plan|
  {
    if |plan| > 0 {
      var next := ApplyFix(files, faults, plan[0]).value;
      ApplyFixesUntouched(next, faults, plan[1..], p);
    }
  }

  /** The plan fails exactly when one of its fixes fails, and then with the
      error of the first such fix. */
  lemma {:induction false} ApplyFixesError(files: Files, faults: map<string, Error>, plan: seq<Fix>)
    ensures ApplyFixes(files, faults, plan).Err? <==> exists i :: 0 <= i < |plan| && Fails(faults, plan[i])
    ensures ApplyFixes(files, faults, plan).Err? ==>
      exists i :: 0 <= i < |plan| && Fails(faults, plan[i])
        && (forall j :: 0 <= j < i ==> !Fails(faults, plan[j]))
        && ApplyFixes(files, faults, plan).error == FailureOf(faults, plan[i])
    decreases |plan|
  {
    if |plan| > 0 {
      ApplyFixFails(files, faults, plan[0]);
      if !Fails(faults, plan[0]) {
        var next := ApplyFix(files, faults, plan[0]).value;
        ApplyFixesError(next, faults, plan[1..]);
        if ApplyFixes(files, faults, plan).Err? {
          var k :| 0 <= k < |plan| - 1 && Fails(faults, plan[1..][k])
            && (forall j :: 0 <= j < k ==> !Fails(faults, plan[1..][j]))
            && ApplyFixes(next, faults, plan[1..]).error == FailureOf(faults, plan[1..][k]);
          assert Fails(faults, plan[k + 1]);
          assert forall j :: 0 <= j < k + 1 ==> !Fails(faults, plan[j]) by {
            forall j | 0 <= j < k + 1 ensures !Fails(faults, plan[j]) {
              if j > 0 { assert plan[j] == plan[1..][j - 1]; }
            }
          }
        } else {
          forall i | 0 <= i < |plan| ensures !Fails(faults, plan[i]) {
            if i > 0 { assert plan[i] == plan[1..][i - 1]; }
          }
        }
      }
    }
  }

  /** Plans compose: applying `a + b` applies `a`, then `b` to what `a` left. */
  lemma {:induction false} ApplyFixesAppend(files: Files, faults: map<string, Error>, a: seq<Fix>, b: seq<Fix>)
    ensures ApplyFixes(files, faults, a + b) ==
      match ApplyFixes(files, faults, a)
      case Err(e) => Err(e)
      case Ok(mid) => ApplyFixes(mid, faults, b)
    decreases |a|
  {
    if |a| == 0 {
      assert a + b == b;
    } else {
      assert (a + b)[0] == a[0];
      assert (a + b)[1..] == a[1..] + b;
      match ApplyFix(files, faults, a[0])
      case Err(_) =>
      case Ok(next) => ApplyFixesAppend(next, faults, a[1..], b);
    }
  }

  /** The generated plan on a branch whose two paths draw no errors: the
      vulnerable controller is gone, the secure one holds its content, and
      every other path is as before. */
  lemma ApplyGeneratedPlan(files: Files, faults: map<string, Error>)
    requires VulnerablePath !in faults && SecurePath !in faults
    ensures ApplyFixes(files, faults, GenerateFix()) ==
      Ok((files - {VulnerablePath})[SecurePath := SecureControllerContent])
  {
  }

  const TitlePrefix: string := "Fix: "

  /** The pull request's title. */
  function Title(summary: string): string {
    TitlePrefix + summary
  }

  /** The Markdown link to the ticket, as the body writes it. */
  function TicketLink(key: string, jiraUrl: string): string {
    "[" + key + "](" + jiraUrl + "/browse/" + key + ")"
  }

  const IntroHeading: string := "## Automated Fix for "
  const IntroText: string :=
    "\n\nThis PR addresses the SonarQube quality gate failures identified in "
  const ChangesHeading: string := ".\n\n### Changes:\n"
  const TicketHeading: string := "\n\n### JIRA Ticket\n- **Ticket**: "
  const SummaryHeading: string := "\n- **Summary**: "
  const Footer: string :=
    "\n\n---\n\U{1F916} This PR was automatically generated by the JIRA Monitor Agent.\n"
    + "Please review and approve if the changes look correct.\n"

  /** The opening of the body, up to the ticket link. */
  function BodyIntro(key: string): string {
    IntroHeading + key + IntroText
  }

  /** The text of the body before the change list. */
  function BodyHead(key: string, jiraUrl: string): string {
    BodyIntro(key) + TicketLink(key, jiraUrl) + ChangesHeading
  }

  /** The "JIRA Ticket" section's lines and the footer. */
  function TicketSection(key: string, jiraUrl: string, summary: string): string {
    TicketLink(key, jiraUrl) + SummaryHeading + summary + Footer
  }

  /** The text of the body after the change list. */
  function BodyTail(key: string, jiraUrl: string, summary: string): string {
    TicketHeading + TicketSection(key, jiraUrl, summary)
  }

  /** The pull request's body around a change list (`ChangeList(plan)`). */
  function PrBody(key: string, jiraUrl: string, summary: string, changes: string): string {
    BodyHead(key, jiraUrl) + changes + BodyTail(key, jiraUrl, summary)
  }

  /** The body links the ticket and carries the change list whole, right
      after the "Changes" heading and right before the "JIRA Ticket" heading,
      so the list is the whole "Changes" section. */
  lemma PrBodyContents(key: string, jiraUrl: string, summary: string, changes: string)
    ensures Contains(PrBody(key, jiraUrl, summary, changes), TicketLink(key, jiraUrl))
    ensures Contains(PrBody(key, jiraUrl, summary, changes), changes)
    ensures IsPrefix(BodyHead(key, jiraUrl) + changes, PrBody(key, jiraUrl, summary, changes))
    ensures IsPrefix(BodyHead(key, jiraUrl) + changes + TicketHeading, PrBody(key, jiraUrl, summary, changes))
  {
    var intro, link := BodyIntro(key), TicketLink(key, jiraUrl);
    var head, tail := BodyHead(key, jiraUrl), BodyTail(key, jiraUrl, summary);
    var body := head + changes + tail;
    ContainsPart(head, changes, tail);
    Regroup(intro, link, ChangesHeading, changes, tail);
    ContainsPart(intro, link, ChangesHeading + changes + tail);
    PrefixOfConcat(head + changes, tail);
    PrefixThrough(head, changes, TicketHeading, TicketSection(key, jiraUrl, summary));
  }

  /** The `pulls.create` request: the fix branch into the default branch of
      the configured repository, titled and described from the ticket. */
  function OpenPullRequest(key: string, summary: string, cfg: Config, plan: seq<Fix>,
                           base: string, url: string): (pr: PullRequest)
    ensures IsPrefix(BranchPrefix, pr.head)
    ensures |pr.head| >= |BranchPrefix| + |BranchSuffix| && BranchKey(pr.head) == Lower(key)
    ensures pr.head[|pr.head| - |BranchSuffix|..] == BranchSuffix
    ensures IsPrefix(TitlePrefix, pr.title) && pr.title[|TitlePrefix|..] == summary
    ensures Contains(pr.body, TicketLink(key, cfg.jiraUrl))
    ensures Contains(pr.body, ChangeList(plan))
    ensures IsPrefix(BodyHead(key, cfg.jiraUrl) + ChangeList(plan), pr.body)
    ensures IsPrefix(BodyHead(key, cfg.jiraUrl) + ChangeList(plan) + TicketHeading, pr.body)
    ensures pr.base == base && pr.url == url
    ensures (pr.owner, pr.repo) == RepoParts(cfg.githubRepo)
  {
    BranchNameShape(key);
    PrBodyContents(key, cfg.jiraUrl, summary, ChangeList(plan));
    PrefixOfConcat(TitlePrefix, summary);
    var target := RepoParts(cfg.githubRepo);
    PullRequest(target.0, target.1, Title(summary), BranchName(key), base,
                PrBody(key, cfg.jiraUrl, summary, ChangeList(plan)), url)
  }

  /** `createPullRequest`: look up the default branch and its head, create or
      reuse the fix branch, apply the plan to it, and open the pull request.
      Errors from any step but a 422 on branch creation abort the rest, and
      the error reported is the first step's that failed. */
  function CreatePullRequest(key: string, summary: string, cfg: Config, plan: seq<Fix>, host: Host)
    : (r: Result<Published>)
    ensures r.Ok? <==>
      && host.repoInfo.Ok? && host.headRef.Ok?
      && CreateBranch(host.createRef).Ok?
      && ApplyFixes(host.tree, host.faults, plan).Ok?
      && host.pull.Ok?
    ensures r.Ok? ==>
      && r.value.pr == OpenPullRequest(key, summary, cfg, plan, host.repoInfo.value, host.pull.value)
      && r.value.branch == CreateBranch(host.createRef).value
      && r.value.files == ApplyFixes(host.tree, host.faults, plan).value
    ensures host.repoInfo.Err? ==> r == Err(host.repoInfo.error)
    ensures host.repoInfo.Ok? && host.headRef.Err? ==> r == Err(host.headRef.error)
    ensures (host.repoInfo.Ok? && host.headRef.Ok? && host.createRef.Reject?
             && !HasStatus(host.createRef.error, 422))
            ==> r == Err(host.createRef.error)
    ensures (host.repoInfo.Ok? && host.headRef.Ok? && CreateBranch(host.createRef).Ok?
             && ApplyFixes(host.tree, host.faults, plan).Err?)
            ==> r == Err(ApplyFixes(host.tree, host.faults, plan).error)
    ensures (host.repoInfo.Ok? && host.headRef.Ok? && CreateBranch(host.createRef).Ok?
             && ApplyFixes(host.tree, host.faults, plan).Ok? && host.pull.Err?)
            ==> r == Err(host.pull.error)
  {
    if host.repoInfo.Err? then Err(host.repoInfo.error)
    else if host.headRef.Err? then Err(host.headRef.error)
    else
      var use := CreateBranch(host.createRef);
      if use.Err? then Err(use.error)
      else
        var applied := ApplyFixes(host.tree, host.faults, plan);
        if applied.Err? then Err(applied.error)
        else if host.pull.Err? then Err(host.pull.error)
        else
          var pr := OpenPullRequest(key, summary, cfg, plan, host.repoInfo.value, host.pull.value);
          Ok(Published(pr, use.value, applied.value))
  }
}

=== FILE: results.dfy ===
/** Outcome values that stand in for the agent's network calls and thrown errors.

    Every HTTP request the agent makes (JIRA or GitHub) is replaced by the
    answer it gets back: a success carrying the datum the agent reads from the
    response, or an `Error` carrying the HTTP status (when there is one) and the
    error's message, which is all the agent ever inspects of a thrown error.
 */
module Results {

  datatype Option<+T> = None | Some(value: T)

  /** A thrown error as the agent sees it: `error.status` (absent for errors
      that are not HTTP responses) and `error.message`. */
  datatype Error = Error(status: Option<int>, message: string)

  /** The result of a call that either yields a value or throws. */
  datatype Result<+T> = Ok(value: T) | Err(error: Error)

  /** The answer to a request whose response body the agent does not read. */
  datatype Reply = Accept | Reject(error: Error)

  /** True when `e` carries exactly the HTTP status `code`. */
  predicate HasStatus(e: Error, code: int) {
    e.status == Some(code)
  }
}

=== FILE: text.dfy ===
/** String operations the agent and the controllers rely on from their
    runtimes: JavaScript's `toLowerCase`, `split` and `join`, and Java's
    `String.valueOf(int)` for non-negative values. */
module Text {

  predicate IsUpper(c: char) {
    'A' <= c <= 'Z'
  }

  predicate IsDigit(c: char) {
    '0' <= c <= '9'
  }

  /** Lower-cases one ASCII letter; every other character is left alone. */
  function LowerChar(c: char): (r: char)
    ensures !IsUpper(r)
    ensures IsUpper(c) ==> r as int == c as int + 32
    ensures !IsUpper(c) ==> r == c
  {
    if IsUpper(c) then (c as int + 32) as char else c
  }

  /** `s.toLowerCase()`, restricted to the ASCII letters. */
  function Lower(s: string): (r: string)
    ensures |r| == |s|
    ensures forall i :: 0 <= i < |s| ==> r[i] == LowerChar(s[i])
  {
    seq(|s|, i requires 0 <= i < |s| => LowerChar(s[i]))
  }

  /** `parts.join(sep)`: the parts with one separator between neighbours. */
  function Join(parts: seq<string>, sep: char): string
  {
    if |parts| == 0 then ""
    else if |parts| == 1 then parts[0]
    else parts[0] + [sep] + Join(parts[1..], sep)
  }

  /** `s.split(sep)` for a one-character separator: the maximal runs between
      separators, so never an empty list, and joining them back yields `s`. */
  function Split(s: string, sep: char): (parts: seq<string>)
    ensures |parts| >= 1
    ensures forall i :: 0 <= i < |parts| ==> sep !in parts[i]
    ensures Join(parts, sep) == s
    decreases |s|
  {
    if |s| == 0 then [""]
    else
      var rest := Split(s[1..], sep);
      if s[0] == sep then
        assert ([""] + rest)[1..] == rest;
        [""] + rest
      else
        var parts := [[s[0]] + rest[0]] + rest[1..];
        assert parts[1..] == rest[1..];
        assert s == [s[0]] + s[1..];
        parts
  }

  /** Splitting a separator-free string yields that string alone. */
  lemma SplitNoSeparator(s: string, sep: char)
    requires sep !in s
    ensures Split(s, sep) == [s]
    decreases |s|
  {
  }

  /** A separator-free prefix followed by a separator splits off as one part. */
  lemma {:induction false} SplitCons(a: string, sep: char, b: string)
    requires sep !in a
    ensures Split(a + [sep] + b, sep) == [a] + Split(b, sep)
    decreases |a|
  {
    var s := a + [sep] + b;
    if |a| == 0 {
      assert s[1..] == b;
    } else {
      assert s[1..] == a[1..] + [sep] + b;
      SplitCons(a[1..], sep, b);
      assert [a[0]] + a[1..] == a;
    }
  }

  /** Split undoes Join when no part contains the separator. */
  lemma {:induction false} SplitJoin(parts: seq<string>, sep: char)
    requires |parts| >= 1
    requires forall i :: 0 <= i < |parts| ==> sep !in parts[i]
    ensures Split(Join(parts, sep), sep) == parts
    decreases |parts|
  {
    if |parts| == 1 {
      SplitNoSeparator(parts[0], sep);
    } else {
      SplitJoin(parts[1..], sep);
      SplitCons(parts[0], sep, Join(parts[1..], sep));
      assert [parts[0]] + parts[1..] == parts;
    }
  }

  /** The first two parts of a join, and what follows them: the end of the
      string when there are only two, a separator otherwise. */
  lemma JoinFront(parts: seq<string>, sep: char)
    requires |parts| >= 2
    ensures IsPrefix(parts[0] + [sep] + parts[1], Join(parts, sep))
    ensures |parts| == 2 <==> |Join(parts, sep)| == |parts[0]| + 1 + |parts[1]|
    ensures |parts| > 2 ==> Join(parts, sep)[|parts[0]| + 1 + |parts[1]|] == sep
  {
  }

  /** `s` begins with `p`. */
  predicate IsPrefix(p: string, s: string) {
    |p| <= |s| && s[..|p|] == p
  }

  lemma PrefixOfConcat(a: string, b: string)
    ensures IsPrefix(a, a + b)
  {
    assert (a + b)[..|a|] == a;
  }

  lemma PrefixThrough(a: string, b: string, c: string, d: string)
    ensures IsPrefix(a + b + c, a + b + (c + d))
  {
    PrefixOfConcat(a + b + c, d);
  }

  lemma Regroup(a: string, b: string, c: string, d: string, e: string)
    ensures (a + b + c) + d + e == a + b + (c + d + e)
  {
  }

  /** `t` occurs somewhere in `s`. */
  ghost predicate Contains(s: string, t: string) {
    exists i :: 0 <= i <= |s| && IsPrefix(t, s[i..])
  }

  lemma ContainsPart(a: string, t: string, b: string)
    ensures Contains(a + t + b, t)
  {
    var s := a + t + b;
    assert s[|a|..][..|t|] == t;
    assert IsPrefix(t, s[|a|..]);
  }

  function DigitChar(d: nat): (c: char)
    requires d < 10
    ensures IsDigit(c)
  {
    ('0' as int + d) as char
  }

  function DigitValue(c: char): (d: nat)
    requires IsDigit(c)
    ensures d < 10
    ensures DigitChar(d) == c
  {
    c as int - '0' as int
  }

  predicate AllDigits(s: string) {
    forall i :: 0 <= i < |s| ==> IsDigit(s[i])
  }

  /** The value of a string of decimal digits, most significant first. */
  function DecimalValue(s: string): nat
    requires AllDigits(s)
  {
    if |s| == 0 then 0
    else DecimalValue(s[..|s| - 1]) * 10 + DigitValue(s[|s| - 1])
  }

  /** `String.valueOf(n)` for `n >= 0`: decimal digits without leading zeros. */
  function Decimal(n: nat): (s: string)
    ensures |s| >= 1 && AllDigits(s)
    ensures s[0] == '0' ==> n == 0
  {
    if n < 10 then [DigitChar(n)]
    else Decimal(n / 10) + [DigitChar(n % 10)]
  }

  /** Reading back the digits of `Decimal(n)` gives `n`. */
  lemma {:induction false} DecimalRoundTrip(n: nat)
    ensures DecimalValue(Decimal(n)) == n
  {
    var s := Decimal(n);
    if n >= 10 {
      DecimalRoundTrip(n / 10);
      assert s[..|s| - 1] == Decimal(n / 10);
      assert DigitValue(s[|s| - 1]) == n % 10 by {
        assert DigitChar(DigitValue(s[|s| - 1])) == DigitChar(n % 10);
      }
    } else {
      assert DigitChar(DigitValue(s[0])) == DigitChar(n);
    }
  }
}

=== FILE: vulnerable_controller.dfy ===
/** The pure members of the deliberately vulnerable controller: the nested
    integer classifier `complexMethod` and the string built by
    `evaluateExpression`. */
module VulnerableController {
  import opened Text

  /** Java's `int`. Only comparisons are made on it, so no value wraps. */
  newtype int32 = x: int | -0x8000_0000 <= x < 0x8000_0000

  /** The seven answers `complexMethod` can give. */
  const Cases: set<string> := {"Case 1", "Case 2", "Case 3", "Case 4", "Case 5", "Case 6", "Case 7"}

  /** `complexMethod`: nested comparisons, stated here flat, one condition per
      answer; the conditions cover every input and exclude one another. */
  function ComplexMethod(a: int32, b: int32, c: int32): (r: string)
    ensures r in Cases
    ensures r == "Case 7" <==> a <= 0
    ensures r == "Case 6" <==> a > 0 && b <= 0
    ensures r == "Case 5" <==> a > 0 && b > 0 && c <= 0
    ensures r == "Case 1" <==> a > 0 && b > 0 && c > 0 && a > b && b > c
    ensures r == "Case 2" <==> a > 0 && b > 0 && c > 0 && a > b && b <= c
    ensures r == "Case 3" <==> a > 0 && b > 0 && c > 0 && a <= b && a > c
    ensures r == "Case 4" <==> a > 0 && b > 0 && c > 0 && a <= b && a <= c
  {
    if a > 0 then
      if b > 0 then
        if c > 0 then
          if a > b then
            if b > c then "Case 1" else "Case 2"
          else
            if a > c then "Case 3" else "Case 4"
        else "Case 5"
      else "Case 6"
    else "Case 7"
  }

  /** Every answer is reached by some input. */
  lemma EveryCaseReachable()
    ensures ComplexMethod(3, 2, 1) == "Case 1"
    ensures ComplexMethod(2, 1, 1) == "Case 2"
    ensures ComplexMethod(2, 2, 1) == "Case 3"
    ensures ComplexMethod(1, 1, 1) == "Case 4"
    ensures ComplexMethod(1, 1, 0) == "Case 5"
    ensures ComplexMethod(1, 0, 0) == "Case 6"
    ensures ComplexMethod(0, 0, 0) == "Case 7"
  {
  }

  const ResultPrefix: string := "Result: "

  /** `evaluateExpression`: the expression echoed after "Result: ". */
  function EvaluateExpression(expression: string): (r: string)
    ensures IsPrefix(ResultPrefix, r)
    ensures r[|ResultPrefix|..] == expression
  {
    ResultPrefix + expression
  }
}
